=== FILE: README.md ===
# Weather station core, modelled in Dafny

This project models the core of a Go weather station. The station samples
sensors, stores one observation row per tick in SQLite, and republishes the
unsent rows to a remote collector. The model covers six pieces:

- **Observation store** (`datastore.dfy`, module `DataStore`). The three SQL
  statements act on an abstract `observations` table: a sequence of records,
  each holding nine columns and a `published` flag. `Write` appends a record.
  `ReadUnpublished` returns the unpublished records as rows, ordered by
  timestamp. `UpdatePublished(min, max)` sets the flag on every record whose
  timestamp is `BETWEEN` the two bounds. A database failure is an input, and
  it leaves the table unchanged.
- **Publish cycle** (`publisher.dfy`, module `Publisher`; `json_body.dfy`,
  module `JsonBody`; `publish_cycle.dfy`, module `PublishCycle`).
  `Publisher.Process` is a pure decision. Its inputs are the read result, the
  endpoint configuration, whether the request could be built, and the HTTP
  outcome. Its output is the request it sends and the bounds it passes to
  `UpdatePublished`. The JSON body is a tree of numbers, objects and arrays,
  and it decodes back to the batch. `PublishCycle` runs a cycle against the
  store. It proves that, with no write between the read and the mark, the
  records newly marked are exactly the rows sent. It also proves the gap: a
  row written in between, with a timestamp inside the sent range, is marked
  without being sent.
- **Wind vane** (`wind_direction.dfy`, module `WindDirection`). A 10-bit ADC
  reading becomes a voltage, the voltage is formatted to one decimal, and the
  string is looked up in a constant table of 16 headings. The rounding is
  exact: the key in tenths is `(reading + 15) / 31`.
- **Pulse counter** (`pulse_counter.dfy`, module `PulseCounter`). The
  wind-speed and rainfall tools share this counter. It is a state machine over
  a trace of events: an edge callback with the pin level it read, the loop's
  snapshot, and the loop's separate reset.
- **Conversions** (`wind_speed.dfy`, module `WindSpeed`; `rainfall.dfy`,
  module `Rainfall`). A snapshot count becomes km/h, or mm of rain, using exact
  `real` arithmetic.
- **BME280 provider lifecycle** (`atmospheric_provider.dfy`, module
  `AtmosphericProvider`). `Connect`, `Readings` and `Disconnect` work over
  opaque driver outcomes. The model records which resources get closed and
  whether the provider keeps a driver.

`wrappers.dfy` holds the Option/Result/Outcome types. `readings.dfy` holds the
record shapes. Reading fields are opaque values carried as `real`.

Some facts about the code that shape the model:

- An unmapped vane voltage gives no heading (the lookup's `ok` flag). There
  is no −1 sentinel.
- There is no gust maximum and no windowed mean. The tools report one value
  per interval.
- The snapshot and the reset are two separate critical sections. There is no
  atomic snapshot-and-zero.
- The JSON keys follow the Go struct tags (`timestamp`, `atmospherics`,
  `wind`, `rain`). `IntervalSeconds` and the nested reading fields have no
  tag, so their keys are the Go field names (`IntervalSeconds`,
  `Temperature`, `Speed`, `Rainfall`, ...).

## Model

| member | source | states |
|---|---|---|
| DataStore.BindInsert | datastore.go:10-11 | The insert binds exactly nine values, and each lands in the column `InsertColumns` names at its position (`timestamp`, `wind_speed`, `wind_direction`, `wind_gust_speed`, `rainfall`, `temperature`, `humidity`, `pressure`, `interval_secs`), read back by name; arguments of the wrong number or kind are refused; `published` gets the schema default (false) |
| DataStore.WriteReadRoundTrip | datastore.go:60-104 | A row written and then read back has every field value unchanged, with no column swapped, and starts unpublished |
| DataStore.Write | datastore.go:59-76 | On success, exactly one record is appended, it reads back as the row, it is unpublished, and earlier records are untouched; on error, the table is unchanged and the engine's error is returned as is |
| DataStore.SortByTimestamp | datastore.go:12-14 | `ORDER BY timestamp ASC` gives an ascending permutation of its input |
| DataStore.ReadUnpublished | datastore.go:79-108 | On success, the rows are ascending by timestamp and are exactly the unpublished records as a multiset, so an empty table gives an empty, error-free result; on error, no rows and the same error |
| DataStore.UpdatePublished | datastore.go:111-124 | On success, a record ends up published iff it already was or its timestamp is in the inclusive range; no column value changes; on error, the table is unchanged and the error is returned |
| DataStore.WriteExtends | datastore.go:10-11 | `Write` never clears a flag or alters a stored record |
| DataStore.UpdatePublishedExtends | datastore.go:15 | `UpdatePublished` never clears a flag (the flag only goes false to true) and keeps every value |
| DataStore.UpdatePublishedIdempotent | datastore.go:15 | Marking the same range twice gives the same table as marking it once |
| DataStore.MarkRangeFlips | datastore.go:15 | The records newly published are exactly the unpublished ones inside the range; those left unpublished are exactly the ones outside it |
| DataStore.ReadAfterUpdatePublished | datastore.go:12-15 | After a mark, the rows read back are exactly the earlier unpublished rows outside the range |
| DataStore.MarkAfterAppend | datastore.go:15 | When all unpublished records lie in the range, marking after one append flips them plus the new record iff it lies in the range |
| JsonBody.DecodeEncodeRow | datastore.go:17-24 | One row's JSON object, keyed by the struct tags and field names, decodes back to the same row |
| JsonBody.DecodeEncode | producer_test.go:72-86 | Decoding the request body gives the batch back: same length, same rows, same order |
| Publisher.UrlParts | publisher.go:92-96 | For a host without a slash, the URL splits back into that host and the configured path behind exactly one leading slash (`https://<host>/<path>`) |
| Publisher.Process | publisher.go:63-136 | A read error or an empty batch sends nothing and marks nothing; a request is sent iff the batch is non-empty and the request builds; it uses the configured method (GET when that is empty, as `http.NewRequest` does), the https URL and `application/json`, and its body decodes to the whole batch in read order; a mark happens iff the answer is 201, with (first, last) timestamps, and the cycle then ends acknowledged; otherwise a failed build, the transport error or the status ends the cycle |
| PublishCycle.RunCycle | publisher.go:126-135 | Without a mark the store is unchanged; a failed mark leaves the store unchanged, and its error is returned once and not retried (the store and `Process` each log it); no cycle clears a flag |
| PublishCycle.BatchBoundsCover | publisher.go:126-129 | For any read that is ascending and holds exactly the unpublished records, the first and last timestamps bound every unpublished record, so the marked range covers the whole batch |
| PublishCycle.AcknowledgedCycle | publisher.go:118-129 | An acknowledged cycle sends the whole batch and marks from its first timestamp to its last |
| PublishCycle.MarkedEqualsSent | publisher.go:64-129 | When every call succeeds and nothing is written in between, the records newly marked are exactly the rows sent (as a multiset), and none stay unpublished |
| PublishCycle.FailedDeliveryKeepsBatch | publisher.go:109-124 | A read, build, transport or non-201 failure marks nothing; the store is unchanged and the next read returns the identical batch |
| PublishCycle.RetrySendsSameBatch | publisher.go:118-124 | After a non-201 or transport failure, the next successful cycle sends the identical request, so delivery is at least once |
| PublishCycle.FailedMarkLeavesRowsUnpublished | publisher.go:126-135 | A failed `UpdatePublished` is reported and not retried; the rows stay unpublished and are sent again next cycle |
| PublishCycle.WriteBetweenReadAndMark | publisher.go:126-129 | A row written between the read and the mark is marked published without being sent iff its timestamp lies within [first, last] of the batch |
| PublishCycle.RaceExample | publisher.go:126-129 | Concrete race: rows at 10 and 30 are sent, a row at 20 arrives in between, and the mark publishes it unsent |
| WindDirection.VoltageTenths | cmd/sen08942_winddirection/main.go:84-85 | `(reading + 15) / 31` is within strictly less than half a tenth of `reading / 1023 * 3.3`, so it is the one-decimal rounding and no reading is a tie |
| WindDirection.NearestTenthUnique | cmd/sen08942_winddirection/main.go:84-85 | Any whole number of tenths within half a tenth of the voltage is the key's value |
| WindDirection.ParseFormatTenths | cmd/sen08942_winddirection/main.go:85 | The one-decimal key string parses back to its tenths, so formatting loses nothing |
| WindDirection.FormatTenthsInjective | cmd/sen08942_winddirection/main.go:85 | Distinct tenths give distinct key strings |
| WindDirection.Heading | cmd/sen08942_winddirection/main.go:83-90 | A reading yields a heading iff its voltage rounds to one of the 16 tabulated tenths; the heading is then the table's entry for the key and one of the 16 compass points; absence is `None`, not 0.0 |
| WindDirection.TableKeyTenths | cmd/sen08942_winddirection/main.go:24-41 | Every key of the table parses to one of the 16 tabulated tenths |
| WindDirection.FormattedKeyInTable | cmd/sen08942_winddirection/main.go:24-41 | A formatted voltage is a table key iff its tenths are among the 16 tabulated ones |
| WindDirection.NoHeadingAtExtremes | cmd/sen08942_winddirection/main.go:83-90 | Readings 0..15 (key "0.0") and full scale 1023 (key "3.3") yield no heading |
| WindDirection.TableSize | cmd/sen08942_winddirection/main.go:24-41 | The table has exactly 16 entries |
| WindDirection.TableIsOneToOne | cmd/sen08942_winddirection/main.go:24-41 | Distinct keys carry distinct headings, all in [0, 360) |
| WindDirection.TableHeadingsAreCompassPoints | cmd/sen08942_winddirection/main.go:24-41 | The headings are exactly k·22.5 for k = 0..15 |
| PulseCounter.CountIsSinceReset | cmd/sen08942_windspeed/main.go:48-60 | In any interleaving, the count equals the number of high edges since the last reset |
| PulseCounter.SnapshotReportsWindow | cmd/sen08942_windspeed/main.go:74-76 | A snapshot appends exactly the high edges since the last reset and never revises earlier reports |
| PulseCounter.EdgesCount | cmd/sen08942_windspeed/main.go:54-60 | Edge callbacks add one per high pin level and nothing for low levels |
| PulseCounter.ResetStartsFromZero | cmd/sen08942_rainfall/main.go:45-49 | After a reset the count holds exactly the high edges that followed it |
| PulseCounter.IntervalStep | cmd/sen08942_windspeed/main.go:74-82 | One loop interval reports its pre-snapshot high edges and leaves the count at zero |
| PulseCounter.LoopReports | cmd/sen08942_windspeed/main.go:69-84 | Over the loop, the i-th snapshot reports exactly the high edges of interval i that came before it |
| PulseCounter.LoopAccounting | cmd/sen08942_rainfall/main.go:71-77 | Total high edges = sum of the reports + edges between a snapshot and its reset; no edge is reported twice, and the in-between edges are reported by none |
| WindSpeed.SpeedKmh | cmd/sen08942_windspeed/main.go:77-79 | The speed is zero for no edges and never negative |
| WindSpeed.SpeedIsProportional | cmd/sen08942_windspeed/main.go:28 | The speed is the count times 0.076464·π km/h: half a rotation per edge, radius 9, interval 5, factor 1.18 |
| WindSpeed.SpeedLinear | cmd/sen08942_windspeed/main.go:77-79 | The speed is linear in the count |
| WindSpeed.LoopSpeeds | cmd/sen08942_windspeed/main.go:74-82 | Over the loop, the i-th speed computed is the speed of the high edges that arrived in interval i before its snapshot |
| Rainfall.RainfallMm | cmd/sen08942_rainfall/main.go:74 | Rainfall is zero for no tips, never negative, and at least 0.2794 mm once a tip is counted |
| Rainfall.RainfallIgnoresInterval | cmd/sen08942_rainfall/main.go:74-76 | The reported rainfall depends on the count alone; the interval is only reported beside it |
| Rainfall.RainfallLinear | cmd/sen08942_rainfall/main.go:74 | Rainfall is linear in the number of tips |
| Rainfall.LoopRainfall | cmd/sen08942_rainfall/main.go:71-77 | The rainfall totals computed per interval, plus the rain of the tips that fell between a snapshot and its reset, equal the rain of all tips |
| Rainfall.NextIntervalStartsFromZero | cmd/sen08942_rainfall/main.go:77 | After a reset, the next computed total covers only the tips that arrived after it |
| AtmosphericProvider.NewProvider | atmospheric_provider.go:39-44 | A new provider holds no driver |
| AtmosphericProvider.Connect | atmospheric_provider.go:47-87 | A failed open returns its error and closes nothing; a failed init closes the device; a failed test read closes the driver; in every failure the driver stays as it was; the driver is set only when all three succeed; a failed close is logged, and only logged; nothing else is logged |
| AtmosphericProvider.ConnectReleasesOrKeeps | atmospheric_provider.go:47-87 | A device `Connect` opened is afterwards either held as the driver or closed exactly once |
| AtmosphericProvider.ReadingsOf | atmospheric_provider.go:90-101 | On a connected provider, the three values are copied from the driver's response, or the driver's error is returned with no reading |
| AtmosphericProvider.Disconnect | atmospheric_provider.go:104-116 | A provider that never connected closes nothing and logs only that it is not connected; otherwise the driver is closed once, a failed close is logged as exactly that close error and not returned, a successful close logs nothing, and the driver is kept |
| AtmosphericProvider.DisconnectTwiceClosesTwice | atmospheric_provider.go:111-116 | Disconnecting a connected provider twice closes its driver twice |
| AtmosphericProvider.FailedConnectThenDisconnect | atmospheric_provider.go:104-109 | After one failed `Connect` of a new provider, `Disconnect` closes nothing |

## Left out

- The `Run`/`Stop` timer and channel loops of the publisher and the producer. They are concurrency plumbing around `Process` and `poll`.
- `SensorProducer.poll`. It passes readings through and dereferences nil when `Readings` fails. No zero-fill fallback is modelled.
- JSON text, the HTTP client, URL escaping and the SQL engine. Only abstract bodies, outcomes and statement meanings are modelled.
- `main.go`, `cmd/weather_station/main.go`, `cmd/bme280/main.go` and `config.go`. They are wiring, flags, signals, migrations and file reading. `wind_provider.go`, `rain_provider.go` and `sensor_provider.go` hold only declarations; their record shapes are reused.
- GPIO, SPI/MCP3008 and I2C/BME280 libraries, edge-watch delivery and the mutex. The counter's critical sections are atomic trace events.
- The rainfall tool's unconditional "failed to close gpio" print. It is output only.
- The schema default for `published` lives in migrations that are not part of this model. It is taken as false.
- Floating point. Readings, voltages and conversions use exact `real`. The vane's float rounding error is far below the 1/62-tenth margin to a tie, so it does not change the key; that bound is argued, not proved.
- Timestamps are unbounded integers. The 64-bit range is not modelled because no arithmetic is done on them.
- Logging is not modelled, except for the close-failure and not-connected diagnostics of the provider and the publisher's `CycleEnd`.
- Publisher.Process: `json.Marshal` cannot fail here, because a `real` has no NaN or infinity. Whether `http.NewRequest` fails is an input, not derived from the method or URL text.
- Publisher.UrlParts: only non-empty hosts without a slash are covered. With an empty host, Go's `url.URL.String` writes `https://<path>`, so the path would read back as the host. The URL rule models the slash inserted before a relative path, but not escaping or URL syntax with user info, port checks or a colon in the first path segment.
- DataStore.SortByTimestamp: SQL leaves the order of equal timestamps open, and the model fixes one order. The contract of `ReadUnpublished` states only sorted-plus-permutation, so it holds for any order; three lemmas below go further.
- PublishCycle.FailedDeliveryKeepsBatch: the two reads are equal as sequences because the model's sort is one fixed function. This assumes the engine returns rows with equal timestamps in the same order on both reads; without that they are equal only as multisets.
- PublishCycle.RetrySendsSameBatch: the identical request rests on the same assumption. A real engine may order rows with equal timestamps differently on the retry, and then the body carries the same rows in another order.
- PublishCycle.FailedMarkLeavesRowsUnpublished: the two `Sent` sequences are equal under the same assumption, and otherwise only as multisets.
- WindSpeed.LoopSpeeds: states the exact speeds, while the tool prints each with `%f` (six decimals of a float64). The printed text is a rounding of the value stated here.
- Rainfall.LoopRainfall: states the exact totals, while the tool prints each with `%.2f`; one tip prints `0.28`, not 0.2794. The accounting identity holds of the computed values, not of the rounded printed text.
- Rainfall.NextIntervalStartsFromZero: the report it states is the exact total, before `%.2f` rounding for printing.
- AtmosphericProvider.ReadingsOf: requires a connected provider. The source dereferences a nil driver (a panic) when it is called unconnected.
- WindSpeed.SpeedKmh: uses the default radius, interval and factor as constants, because the tool never calls `flag.Parse`. π is Go's `math.Pi` decimal as an exact real.

=== FILE: atmospheric_provider.dfy ===
/** The BME280 provider's lifecycle. The I2C bus and the chip driver are
    opaque: each call they make is given as an outcome (success with a
    value, or an error). The model records which resources the provider
    closes and whether it keeps a driver. */
module AtmosphericProvider {
  import opened Wrappers
  import opened Readings

  /** An opened I2C device, identified by the handle the bus returned. */
  datatype Device = Device(id: nat)

  /** A close call: on the raw device, or on the driver wrapping it. */
  datatype Close = CloseDevice(device: Device) | CloseDriver(device: Device)

  /** The chip's answer to a read. */
  datatype Response = Response(temperature: real, pressure: real, humidity: real)

  /** Diagnostics the provider logs instead of returning. */
  datatype Log = CloseFailed(error: Error) | NotConnected

  /** The provider's state: its bus settings and, once connected, the
      driver (identified by the device it wraps). */
  datatype Provider = Provider(i2cAddr: int, i2cBus: string, driver: Option<Device>)

  function NewProvider(i2cAddr: int, i2cBus: string): (p: Provider)
    ensures p.driver.None?
  {
    Provider(i2cAddr, i2cBus, None)
  }

  /** The outcomes of the calls `Connect` makes, in order: opening the
      device, initialising the driver, the test read, and a close if one
      is needed. */
  datatype ConnectOutcomes = ConnectOutcomes(open: Result<Device>, init: Outcome, testRead: Result<Response>, close: Outcome)

  datatype ConnectResult = ConnectResult(provider: Provider, result: Outcome, closes: seq<Close>, logs: seq<Log>)

  /** A failed close is logged, never returned. */
  function CloseLog(close: Outcome): seq<Log> {
    match close
    case Pass => []
    case Fail(e) => [CloseFailed(e)]
  }

  /** `Connect`: open the device, initialise the driver, check that a read
      works; keep the driver only if all three succeed, and release what was
      opened on every failure after the open. */
  function Connect(p: Provider, o: ConnectOutcomes): (r: ConnectResult)
    ensures o.open.Failure? ==> r.provider == p && r.result == Fail(o.open.error) && r.closes == []
    ensures o.open.Success? && o.init.Fail? ==>
              r.provider == p && r.result == o.init && r.closes == [CloseDevice(o.open.value)]
    ensures o.open.Success? && o.init.Pass? && o.testRead.Failure? ==>
              r.provider == p && r.result == Fail(o.testRead.error) && r.closes == [CloseDriver(o.open.value)]
    ensures r.result.Pass? <==> o.open.Success? && o.init.Pass? && o.testRead.Success?
    ensures r.result.Pass? ==> r.provider == p.(driver := Some(o.open.value)) && r.closes == []
    ensures r.closes != [] && o.close.Fail? ==> r.logs == [CloseFailed(o.close.error)]
    ensures r.closes != [] && o.close.Pass? ==> r.logs == []
    ensures r.closes == [] ==> r.logs == []
  {
    match o.open
    case Failure(e) => ConnectResult(p, Fail(e), [], [])
    case Success(device) =>
      match o.init
      case Fail(e) => ConnectResult(p, Fail(e), [CloseDevice(device)], CloseLog(o.close))
      case Pass =>
        match o.testRead
        case Failure(e) => ConnectResult(p, Fail(e), [CloseDriver(device)], CloseLog(o.close))
        case Success(_) => ConnectResult(p.(driver := Some(device)), Pass, [], [])
  }

  /** How many of the close calls release `d`. */
  function ClosesOf(closes: seq<Close>, d: Device): nat {
    if closes == [] then 0
    else (if closes[0].device == d then 1 else 0) + ClosesOf(closes[1..], d)
  }

  /** `Connect` leaks nothing: a device it opened is afterwards either held
      as the provider's driver or closed exactly once, never both. */
  lemma ConnectReleasesOrKeeps(p: Provider, o: ConnectOutcomes)
    requires o.open.Success?
    ensures var r := Connect(p, o);
            var held := if r.provider.driver == Some(o.open.value) && r.result.Pass? then 1 else 0;
            held + ClosesOf(r.closes, o.open.value) == 1
  {
  }

  /** `Readings`: copy the three values from the driver's response, or
      return its error with no reading. Needs a connected provider. */
  function ReadingsOf(p: Provider, response: Result<Response>): (r: Result<AtmosphericReadings>)
    requires p.driver.Some?
    ensures response.Failure? ==> r == Failure(response.error)
    ensures response.Success? ==>
              && r.Success?
              && r.value.temperature == response.value.temperature
              && r.value.humidity == response.value.humidity
              && r.value.pressure == response.value.pressure
  {
    match response
    case Failure(e) => Failure(e)
    case Success(resp) => Success(AtmosphericReadings(resp.temperature, resp.pressure, resp.humidity))
  }

  datatype DisconnectResult = DisconnectResult(provider: Provider, closes: seq<Close>, logs: seq<Log>)

  /** `Disconnect`: close the driver if there is one, logging a failure;
      a provider that never connected closes nothing. The driver is kept. */
  function Disconnect(p: Provider, close: Outcome): (r: DisconnectResult)
    ensures r.provider == p
    ensures p.driver.None? ==> r.closes == [] && r.logs == [NotConnected]
    ensures p.driver.Some? ==> r.closes == [CloseDriver(p.driver.value)]
    ensures p.driver.Some? && close.Fail? ==> r.logs == [CloseFailed(close.error)]
    ensures p.driver.Some? && close.Pass? ==> r.logs == []
  {
    match p.driver
    case None => DisconnectResult(p, [], [NotConnected])
    case Some(d) => DisconnectResult(p, [CloseDriver(d)], CloseLog(close))
  }

  /** Because `Disconnect` does not clear the driver, disconnecting a
      connected provider twice closes its driver twice. */
  lemma DisconnectTwiceClosesTwice(p: Provider, o: ConnectOutcomes, c1: Outcome, c2: Outcome)
    requires Connect(p, o).result.Pass?
    ensures var connected := Connect(p, o).provider;
            var first := Disconnect(connected, c1);
            var second := Disconnect(first.provider, c2);
            first.closes + second.closes == [CloseDriver(o.open.value), CloseDriver(o.open.value)]
            && ClosesOf(first.closes + second.closes, o.open.value) == 2
  {
    var d := o.open.value;
    var both := [CloseDriver(d), CloseDriver(d)];
    assert both[1..] == [CloseDriver(d)];
    assert ClosesOf(both[1..], d) == 1;
  }

  /** A new provider whose one `Connect` failed closes nothing on
      `Disconnect`, whatever the failed attempt closed itself. */
  lemma FailedConnectThenDisconnect(i2cAddr: int, i2cBus: string, o: ConnectOutcomes, c: Outcome)
    requires Connect(NewProvider(i2cAddr, i2cBus), o).result.Fail?
    ensures Disconnect(Connect(NewProvider(i2cAddr, i2cBus), o).provider, c).closes == []
  {
  }
}

=== FILE: datastore.dfy ===
/** The SQLite-backed observation store, modelled by the meaning of its three
    statements over an abstract `observations` table: a sequence of records,
    each carrying the nine stored columns and a `published` flag. A database
    failure is an input (`Db`) and leaves the table unchanged. */
module DataStore {
  import opened Wrappers
  import opened Readings

  /** A value bound to one `?` placeholder of a statement. */
  datatype SqlValue = IntValue(i: int) | RealValue(x: real)

  /** One row of the `observations` table, column by column. */
  datatype ObservationRecord = ObservationRecord(
    timestamp: int,
    windSpeed: real,
    windDirection: real,
    windGust: real,
    rainfall: real,
    temperature: real,
    humidity: real,
    pressure: real,
    intervalSecs: int,
    published: bool)

  /** The table, in insertion order. */
  type Store = seq<ObservationRecord>

  /** What the database engine does with one statement. */
  datatype Db = DbOk | DbFailed(error: Error)

  /** The store after a statement together with the error the Go method returns. */
  datatype StoreUpdate = StoreUpdate(store: Store, outcome: Outcome)

  /** The schema's default for `published`, taken by every inserted row. */
  const PublishedDefault: bool := false

  /** The column list of the insert statement, in placeholder order. */
  const InsertColumns: seq<string> := ["timestamp", "wind_speed", "wind_direction", "wind_gust_speed",
    "rainfall", "temperature", "humidity", "pressure", "interval_secs"]

  /** The arguments `Write` passes for the insert statement's placeholders. */
  function InsertArgs(row: WeatherDataRow): (args: seq<SqlValue>)
    ensures |args| == |InsertColumns|
  {
    [ IntValue(row.timestamp),
      RealValue(row.wind.speed),
      RealValue(row.wind.direction),
      RealValue(row.wind.gust),
      RealValue(row.rain.rainfall),
      RealValue(row.atmos.temperature),
      RealValue(row.atmos.humidity),
      RealValue(row.atmos.pressure),
      IntValue(row.intervalSeconds) ]
  }

  /** A record's value in the column called `name`, as the engine stores it
      (the flag as 0 or 1); `None` for a name the table does not have. */
  function Column(rec: ObservationRecord, name: string): Option<SqlValue> {
    match name
    case "timestamp" => Some(IntValue(rec.timestamp))
    case "wind_speed" => Some(RealValue(rec.windSpeed))
    case "wind_direction" => Some(RealValue(rec.windDirection))
    case "wind_gust_speed" => Some(RealValue(rec.windGust))
    case "rainfall" => Some(RealValue(rec.rainfall))
    case "temperature" => Some(RealValue(rec.temperature))
    case "humidity" => Some(RealValue(rec.humidity))
    case "pressure" => Some(RealValue(rec.pressure))
    case "interval_secs" => Some(IntValue(rec.intervalSecs))
    case "published" => Some(IntValue(if rec.published then 1 else 0))
    case _ => None
  }

  /** The insert statement binds its placeholders, in order, to the columns of
      `InsertColumns`; `published` is not listed and takes the schema default.
      Arguments of the wrong number or kind are refused. */
  function BindInsert(args: seq<SqlValue>): (r: Option<ObservationRecord>)
    ensures r.Some? <==> |args| == |InsertColumns| && args[0].IntValue? && args[8].IntValue?
                          && forall k :: 1 <= k < 8 ==> args[k].RealValue?
    ensures r.Some? ==> forall k :: 0 <= k < |InsertColumns| ==> Column(r.value, InsertColumns[k]) == Some(args[k])
    ensures r.Some? ==> r.value.published == PublishedDefault
  {
    if |args| == |InsertColumns| && args[0].IntValue? && args[1].RealValue? && args[2].RealValue?
       && args[3].RealValue? && args[4].RealValue? && args[5].RealValue? && args[6].RealValue?
       && args[7].RealValue? && args[8].IntValue?
    then Some(ObservationRecord(args[0].i, args[1].x, args[2].x, args[3].x, args[4].x,
                                args[5].x, args[6].x, args[7].x, args[8].i, PublishedDefault))
    else None
  }

  /** The conversion loop of `ReadUnpublished`: a selected record read back
      as a `WeatherDataRow`. */
  function ToRow(rec: ObservationRecord): WeatherDataRow {
    WeatherDataRow(
      rec.timestamp,
      AtmosphericReadings(rec.temperature, rec.pressure, rec.humidity),
      WindReadings(rec.windSpeed, rec.windDirection, rec.windGust),
      RainReadings(rec.rainfall),
      rec.intervalSecs)
  }

  /** The record a successful `Write` of `row` appends. */
  function Inserted(row: WeatherDataRow): (rec: ObservationRecord)
    ensures BindInsert(InsertArgs(row)) == Some(rec)
  {
    BindInsert(InsertArgs(row)).value
  }

  /** Every field value `Write` stores comes back unchanged through
      `ReadUnpublished`'s conversion, and the new row starts unpublished:
      the column order of the insert matches the column names read back. */
  lemma WriteReadRoundTrip(row: WeatherDataRow)
    ensures ToRow(Inserted(row)) == row
    ensures !Inserted(row).published
  {
  }

  /** `Write`: append one record, or report the engine's error unchanged. */
  function Write(store: Store, row: WeatherDataRow, db: Db): (r: StoreUpdate)
    ensures db.DbOk? ==> r.outcome == Pass && |r.store| == |store| + 1 && r.store[..|store|] == store
                         && ToRow(r.store[|store|]) == row && !r.store[|store|].published
    ensures db.DbFailed? ==> r.store == store && r.outcome == Fail(db.error)
  {
    match db
    case DbFailed(e) => StoreUpdate(store, Fail(e))
    case DbOk =>
      WriteReadRoundTrip(row);
      StoreUpdate(store + [Inserted(row)], Pass)
  }

  /** The records whose `published` flag is false, in table order. */
  function Unpublished(store: Store): (r: Store)
    ensures |r| <= |store|
    ensures forall k :: 0 <= k < |r| ==> !r[k].published
    ensures forall rec :: rec in store && !rec.published ==> rec in r
    ensures forall rec :: rec in r ==> rec in store
  {
    if store == [] then []
    else if store[0].published then Unpublished(store[1..])
    else [store[0]] + Unpublished(store[1..])
  }

  /** The records converted to rows, position by position. */
  function Rows(recs: seq<ObservationRecord>): (rows: seq<WeatherDataRow>)
    ensures |rows| == |recs|
    ensures forall k :: 0 <= k < |recs| ==> rows[k] == ToRow(recs[k])
  {
    if recs == [] then [] else [ToRow(recs[0])] + Rows(recs[1..])
  }

  lemma RowsAppend(a: seq<ObservationRecord>, b: seq<ObservationRecord>)
    ensures Rows(a + b) == Rows(a) + Rows(b)
  {
  }

  /** `x` placed before the first row of `rows` with a timestamp not below its own. */
  function InsertByTimestamp(x: WeatherDataRow, rows: seq<WeatherDataRow>): (r: seq<WeatherDataRow>)
    requires SortedByTimestamp(rows)
    ensures SortedByTimestamp(r)
    ensures multiset(r) == multiset(rows) + multiset{x}
    ensures forall y :: y in r ==> y == x || y in rows
  {
    if rows == [] || x.timestamp <= rows[0].timestamp then
      SortedCons(x, rows);
      [x] + rows
    else
      var tail := InsertByTimestamp(x, rows[1..]);
      assert rows == [rows[0]] + rows[1..];
      HeadIsLeast(rows);
      SortedCons(rows[0], tail);
      [rows[0]] + tail
  }

  /** In a sorted sequence no later row has an earlier timestamp than the first. */
  lemma HeadIsLeast(rows: seq<WeatherDataRow>)
    requires rows != [] && SortedByTimestamp(rows)
    ensures forall y :: y in rows[1..] ==> rows[0].timestamp <= y.timestamp
  {
    forall y | y in rows[1..]
      ensures rows[0].timestamp <= y.timestamp
    {
      var j :| 0 <= j < |rows[1..]| && rows[1..][j] == y;
      assert rows[j + 1] == y;
    }
  }

  /** A row no later than every row of a sorted sequence can go in front of it. */
  lemma SortedCons(h: WeatherDataRow, t: seq<WeatherDataRow>)
    requires SortedByTimestamp(t)
    requires forall y :: y in t ==> h.timestamp <= y.timestamp
    ensures SortedByTimestamp([h] + t)
  {
    var r := [h] + t;
    forall i, j | 0 <= i < j < |r|
      ensures r[i].timestamp <= r[j].timestamp
    {
      assert r[j] == t[j - 1];
      if i > 0 {
        assert r[i] == t[i - 1];
      } else {
        assert t[j - 1] in t;
      }
    }
  }

  /** `ORDER BY timestamp ASC`. SQL leaves the order of equal timestamps open;
      this picks one, and this contract holds for any. */
  function SortByTimestamp(rows: seq<WeatherDataRow>): (r: seq<WeatherDataRow>)
    ensures SortedByTimestamp(r)
    ensures multiset(r) == multiset(rows)
  {
    if rows == [] then []
    else
      assert rows == [rows[0]] + rows[1..];
      InsertByTimestamp(rows[0], SortByTimestamp(rows[1..]))
  }

  /** `ReadUnpublished`: every unpublished record, converted and in ascending
      timestamp order (conversion and ordering commute, since the conversion
      keeps the timestamp). An engine error comes back with no rows. */
  function ReadUnpublished(store: Store, db: Db): (r: Result<seq<WeatherDataRow>>)
    ensures db.DbFailed? ==> r == Failure(db.error)
    ensures db.DbOk? ==> r.Success? && SortedByTimestamp(r.value)
                         && multiset(r.value) == multiset(Rows(Unpublished(store)))
  {
    match db
    case DbFailed(e) => Failure(e)
    case DbOk => Success(SortByTimestamp(Rows(Unpublished(store))))
  }

  /** The `BETWEEN` test of the update statement: both bounds inclusive. */
  predicate Between(ts: int, lo: int, hi: int) {
    lo <= ts <= hi
  }

  /** The update statement applied to every record. */
  function MarkRange(store: Store, lo: int, hi: int): (r: Store)
    ensures |r| == |store|
    ensures forall k :: 0 <= k < |store| ==>
              r[k] == store[k].(published := store[k].published || Between(store[k].timestamp, lo, hi))
  {
    if store == [] then []
    else [store[0].(published := store[0].published || Between(store[0].timestamp, lo, hi))]
         + MarkRange(store[1..], lo, hi)
  }

  /** `UpdatePublished(lo, hi)`: set `published` on exactly the records whose
      timestamp lies in `[lo, hi]`, or report the engine's error unchanged. */
  function UpdatePublished(store: Store, lo: int, hi: int, db: Db): (r: StoreUpdate)
    ensures db.DbFailed? ==> r.store == store && r.outcome == Fail(db.error)
    ensures db.DbOk? ==> r.outcome == Pass && |r.store| == |store|
    ensures db.DbOk? ==> forall k :: 0 <= k < |store| ==>
              && ToRow(r.store[k]) == ToRow(store[k])
              && (r.store[k].published <==> store[k].published || Between(store[k].timestamp, lo, hi))
  {
    match db
    case DbFailed(e) => StoreUpdate(store, Fail(e))
    case DbOk => StoreUpdate(MarkRange(store, lo, hi), Pass)
  }

  /** `after` keeps every record of `before` in place with the same column
      values, and no flag goes from true back to false. */
  predicate Extends(before: Store, after: Store) {
    && |before| <= |after|
    && forall k :: 0 <= k < |before| ==>
         ToRow(after[k]) == ToRow(before[k]) && (before[k].published ==> after[k].published)
  }

  /** No statement clears a `published` flag or alters a stored value. */
  lemma WriteExtends(store: Store, row: WeatherDataRow, db: Db)
    ensures Extends(store, Write(store, row, db).store)
  {
    if db.DbOk? {
      var after := Write(store, row, db).store;
      forall k | 0 <= k < |store| ensures after[k] == store[k] {
        assert after[..|store|][k] == after[k];
      }
    }
  }

  lemma UpdatePublishedExtends(store: Store, lo: int, hi: int, db: Db)
    ensures Extends(store, UpdatePublished(store, lo, hi, db).store)
  {
  }

  /** Marking the same range twice gives the same table as marking it once. */
  lemma UpdatePublishedIdempotent(store: Store, lo: int, hi: int)
    ensures var once := UpdatePublished(store, lo, hi, DbOk).store;
            UpdatePublished(once, lo, hi, DbOk).store == once
  {
  }

  /** The records that go from unpublished in `before` to published in `after`. */
  function NewlyPublished(before: Store, after: Store): (r: Store)
    requires |before| == |after|
    ensures forall rec :: rec in r ==> rec in before && !rec.published
  {
    if before == [] then []
    else if !before[0].published && after[0].published then [before[0]] + NewlyPublished(before[1..], after[1..])
    else NewlyPublished(before[1..], after[1..])
  }

  /** The unpublished records whose timestamp lies in `[lo, hi]`. */
  function UnpublishedBetween(store: Store, lo: int, hi: int): Store {
    if store == [] then []
    else if !store[0].published && Between(store[0].timestamp, lo, hi)
    then [store[0]] + UnpublishedBetween(store[1..], lo, hi)
    else UnpublishedBetween(store[1..], lo, hi)
  }

  /** The unpublished records whose timestamp lies outside `[lo, hi]`. */
  function UnpublishedOutside(store: Store, lo: int, hi: int): Store {
    if store == [] then []
    else if !store[0].published && !Between(store[0].timestamp, lo, hi)
    then [store[0]] + UnpublishedOutside(store[1..], lo, hi)
    else UnpublishedOutside(store[1..], lo, hi)
  }

  /** The update flips exactly the unpublished records inside the range. */
  lemma {:induction false} MarkRangeFlips(store: Store, lo: int, hi: int)
    ensures NewlyPublished(store, MarkRange(store, lo, hi)) == UnpublishedBetween(store, lo, hi)
    ensures Unpublished(MarkRange(store, lo, hi)) == UnpublishedOutside(store, lo, hi)
  {
    if store != [] {
      MarkRangeFlips(store[1..], lo, hi);
      assert MarkRange(store, lo, hi)[1..] == MarkRange(store[1..], lo, hi);
    }
  }

  /** After the update, the unpublished rows read back are exactly the
      previously unpublished ones outside the range. */
  lemma ReadAfterUpdatePublished(store: Store, lo: int, hi: int)
    ensures var after := UpdatePublished(store, lo, hi, DbOk).store;
            multiset(ReadUnpublished(after, DbOk).value) == multiset(Rows(UnpublishedOutside(store, lo, hi)))
  {
    MarkRangeFlips(store, lo, hi);
  }

  /** When every unpublished record lies in the range, the update flips
      exactly the unpublished records. */
  lemma {:induction false} UnpublishedAllBetween(store: Store, lo: int, hi: int)
    requires forall rec :: rec in Unpublished(store) ==> Between(rec.timestamp, lo, hi)
    ensures UnpublishedBetween(store, lo, hi) == Unpublished(store)
  {
    if store != [] {
      assert forall rec :: rec in Unpublished(store[1..]) ==> rec in Unpublished(store);
      UnpublishedAllBetween(store[1..], lo, hi);
    }
  }

  lemma {:induction false} UnpublishedBetweenAppend(a: Store, b: Store, lo: int, hi: int)
    ensures UnpublishedBetween(a + b, lo, hi) == UnpublishedBetween(a, lo, hi) + UnpublishedBetween(b, lo, hi)
  {
    if a == [] {
      assert a + b == b;
    } else {
      assert (a + b)[0] == a[0];
      assert (a + b)[1..] == a[1..] + b;
      UnpublishedBetweenAppend(a[1..], b, lo, hi);
    }
  }

  /** With every unpublished record already inside the range, marking after
      appending one more record flips the old unpublished records and, when
      it is unpublished and inside the range, the new one. */
  lemma MarkAfterAppend(store: Store, rec: ObservationRecord, lo: int, hi: int)
    requires forall r :: r in Unpublished(store) ==> Between(r.timestamp, lo, hi)
    ensures NewlyPublished(store + [rec], MarkRange(store + [rec], lo, hi))
            == Unpublished(store) + (if !rec.published && Between(rec.timestamp, lo, hi) then [rec] else [])
  {
    UnpublishedBetweenAppend(store, [rec], lo, hi);
    MarkRangeFlips(store + [rec], lo, hi);
    UnpublishedAllBetween(store, lo, hi);
  }
}

=== FILE: json_body.dfy ===
/** The request body of a publish: the batch of rows as a JSON array of
    objects, abstracted to a tree of numbers, objects and arrays. Keys follow
    the Go struct tags of `WeatherDataRow` (`timestamp`, `atmospherics`,
    `wind`, `rain`); the untagged fields are keyed by their Go field names.
    Text encoding and number formatting are not modelled. */
module JsonBody {
  import opened Wrappers
  import opened Readings

  datatype Json = JNumber(n: real) | JObject(members: seq<Member>) | JArray(items: seq<Json>)
  datatype Member = Member(key: string, value: Json)

  /** The value of the first member named `key`. */
  function Field(members: seq<Member>, key: string): (r: Option<Json>)
    ensures r.Some? <==> exists k :: 0 <= k < |members| && members[k].key == key
  {
    if members == [] then None
    else if members[0].key == key then Some(members[0].value)
    else
      var rest := Field(members[1..], key);
      assert forall k :: 1 <= k < |members| ==> members[k] == members[1..][k - 1];
      rest
  }

  /** The lookup finds the first member carrying the key. */
  lemma {:induction false} FieldFirst(members: seq<Member>, key: string, k: nat)
    requires k < |members| && members[k].key == key
    requires forall j :: 0 <= j < k ==> members[j].key != key
    ensures Field(members, key) == Some(members[k].value)
  {
    if k > 0 {
      FieldFirst(members[1..], key, k - 1);
    }
  }

  /** A number decoded into a Go integer field: it must be integral. */
  function AsInt(j: Json): (r: Option<int>)
    ensures r.Some? ==> j == JNumber(r.value as real)
  {
    if j.JNumber? && j.n.Floor as real == j.n then Some(j.n.Floor) else None
  }

  function AsReal(j: Json): (r: Option<real>)
    ensures r.Some? ==> j == JNumber(r.value)
  {
    if j.JNumber? then Some(j.n) else None
  }

  /** The real member `key` of an object. */
  function RealField(j: Json, key: string): Option<real> {
    if j.JObject? then
      match Field(j.members, key)
      case None => None
      case Some(v) => AsReal(v)
    else None
  }

  function EncodeAtmos(a: AtmosphericReadings): Json {
    JObject([Member("Temperature", JNumber(a.temperature)),
             Member("Pressure", JNumber(a.pressure)),
             Member("Humidity", JNumber(a.humidity))])
  }

  function EncodeWind(w: WindReadings): Json {
    JObject([Member("Speed", JNumber(w.speed)),
             Member("Direction", JNumber(w.direction)),
             Member("Gust", JNumber(w.gust))])
  }

  function EncodeRain(r: RainReadings): Json {
    JObject([Member("Rainfall", JNumber(r.rainfall))])
  }

  /** One row as a JSON object, members in Go field order. */
  function EncodeRow(row: WeatherDataRow): Json {
    JObject([Member("timestamp", JNumber(row.timestamp as real)),
             Member("atmospherics", EncodeAtmos(row.atmos)),
             Member("wind", EncodeWind(row.wind)),
             Member("rain", EncodeRain(row.rain)),
             Member("IntervalSeconds", JNumber(row.intervalSeconds as real))])
  }

  function EncodeRows(rows: seq<WeatherDataRow>): (items: seq<Json>)
    ensures |items| == |rows|
  {
    if rows == [] then [] else [EncodeRow(rows[0])] + EncodeRows(rows[1..])
  }

  /** `json.Marshal` of the batch: an array, one object per row, in order. */
  function Encode(rows: seq<WeatherDataRow>): Json {
    JArray(EncodeRows(rows))
  }

  function DecodeAtmos(j: Json): Option<AtmosphericReadings> {
    match (RealField(j, "Temperature"), RealField(j, "Pressure"), RealField(j, "Humidity"))
    case (Some(t), Some(p), Some(h)) => Some(AtmosphericReadings(t, p, h))
    case _ => None
  }

  function DecodeWind(j: Json): Option<WindReadings> {
    match (RealField(j, "Speed"), RealField(j, "Direction"), RealField(j, "Gust"))
    case (Some(s), Some(d), Some(g)) => Some(WindReadings(s, d, g))
    case _ => None
  }

  function DecodeRain(j: Json): Option<RainReadings> {
    match RealField(j, "Rainfall")
    case Some(r) => Some(RainReadings(r))
    case None => None
  }

  /** One object decoded into a row; a missing or ill-typed member fails. */
  function DecodeRow(j: Json): Option<WeatherDataRow> {
    if !j.JObject? then None
    else
      var ts := Field(j.members, "timestamp");
      var atmos := Field(j.members, "atmospherics");
      var wind := Field(j.members, "wind");
      var rain := Field(j.members, "rain");
      var interval := Field(j.members, "IntervalSeconds");
      if ts.None? || atmos.None? || wind.None? || rain.None? || interval.None? then None
      else
        match (AsInt(ts.value), DecodeAtmos(atmos.value), DecodeWind(wind.value),
               DecodeRain(rain.value), AsInt(interval.value))
        case (Some(t), Some(a), Some(w), Some(r), Some(i)) => Some(WeatherDataRow(t, a, w, r, i))
        case _ => None
  }

  function DecodeRows(items: seq<Json>): (r: Option<seq<WeatherDataRow>>)
    ensures r.Some? ==> |r.value| == |items|
  {
    if items == [] then Some([])
    else
      match (DecodeRow(items[0]), DecodeRows(items[1..]))
      case (Some(row), Some(rest)) => Some([row] + rest)
      case _ => None
  }

  /** The inverse of `Encode`, used to state what the body carries: it
      reads back an array of row objects by exact key and fails on a missing
      or ill-typed member. It is not `json.Unmarshal`, which matches keys
      without regard to case and leaves missing fields at zero. */
  function Decode(j: Json): Option<seq<WeatherDataRow>> {
    if j.JArray? then DecodeRows(j.items) else None
  }

  lemma DecodeEncodeAtmos(a: AtmosphericReadings)
    ensures DecodeAtmos(EncodeAtmos(a)) == Some(a)
  {
    FieldFirst(EncodeAtmos(a).members, "Temperature", 0);
    FieldFirst(EncodeAtmos(a).members, "Pressure", 1);
    FieldFirst(EncodeAtmos(a).members, "Humidity", 2);
  }

  lemma DecodeEncodeWind(w: WindReadings)
    ensures DecodeWind(EncodeWind(w)) == Some(w)
  {
    FieldFirst(EncodeWind(w).members, "Speed", 0);
    FieldFirst(EncodeWind(w).members, "Direction", 1);
    FieldFirst(EncodeWind(w).members, "Gust", 2);
  }

  lemma DecodeEncodeRain(r: RainReadings)
    ensures DecodeRain(EncodeRain(r)) == Some(r)
  {
    FieldFirst(EncodeRain(r).members, "Rainfall", 0);
  }

  lemma DecodeEncodeRow(row: WeatherDataRow)
    ensures DecodeRow(EncodeRow(row)) == Some(row)
  {
    var ms := EncodeRow(row).members;
    FieldFirst(ms, "timestamp", 0);
    FieldFirst(ms, "atmospherics", 1);
    FieldFirst(ms, "wind", 2);
    FieldFirst(ms, "rain", 3);
    FieldFirst(ms, "IntervalSeconds", 4);
    assert AsInt(JNumber(row.timestamp as real)) == Some(row.timestamp);
    assert AsInt(JNumber(row.intervalSeconds as real)) == Some(row.intervalSeconds);
    DecodeEncodeAtmos(row.atmos);
    DecodeEncodeWind(row.wind);
    DecodeEncodeRain(row.rain);
  }

  /** Decoding the body gives back the batch: same length, same rows, same order. */
  lemma {:induction false} DecodeEncode(rows: seq<WeatherDataRow>)
    ensures Decode(Encode(rows)) == Some(rows)
  {
    if rows != [] {
      DecodeEncodeRow(rows[0]);
      DecodeEncode(rows[1..]);
      assert EncodeRows(rows)[1..] == EncodeRows(rows[1..]);
      assert [rows[0]] + rows[1..] == rows;
    }
  }
}

=== FILE: publish_cycle.dfy ===
/** A publish cycle run against the store: `ReadUnpublished`, the
    `Process` decision, then `UpdatePublished` with the bounds it chose.
    These lemmas relate what was sent to what was marked. */
module PublishCycle {
  import opened Wrappers
  import opened Readings
  import opened DataStore
  import opened JsonBody
  import opened Publisher

  /** The outcomes of the collaborators during one cycle. */
  datatype Env = Env(readDb: Db, build: Outcome, http: HttpOutcome, markDb: Db)

  /** The environment in which every collaborator succeeds and the collector answers 201. */
  const AllSucceed: Env := Env(DbOk, Pass, Response(StatusCreated), DbOk)

  /** The store after the cycle, the cycle's effects, and what
      `UpdatePublished` returned when it was called (logged, never retried). */
  datatype CycleResult = CycleResult(store: Store, cycle: Cycle, markOutcome: Option<Outcome>)

  function RunCycle(store: Store, cfg: EndpointConfig, env: Env): (r: CycleResult)
    ensures r.cycle.mark.None? ==> r.store == store && r.markOutcome.None?
    ensures r.cycle.mark.Some? && env.markDb.DbFailed? ==> r.store == store && r.markOutcome == Some(Fail(env.markDb.error))
    ensures Extends(store, r.store)
  {
    var c := Process(ReadUnpublished(store, env.readDb), cfg, env.build, env.http);
    match c.mark
    case None => CycleResult(store, c, None)
    case Some(b) =>
      var u := UpdatePublished(store, b.min, b.max, env.markDb);
      UpdatePublishedExtends(store, b.min, b.max, env.markDb);
      CycleResult(u.store, c, Some(u.outcome))
  }

  /** The rows a cycle put on the wire, decoded from the request body. */
  function Sent(c: Cycle): seq<WeatherDataRow> {
    match c.request
    case None => []
    case Some(req) =>
      match Decode(req.body)
      case None => []
      case Some(rows) => rows
  }

  /** The bounds taken from the first and last row of any ordered, complete
      read of the unpublished records cover every one of them. */
  lemma BatchBoundsCover(store: Store, batch: seq<WeatherDataRow>)
    requires Unpublished(store) != []
    requires SortedByTimestamp(batch) && multiset(batch) == multiset(Rows(Unpublished(store)))
    ensures batch != []
    ensures forall rec :: rec in Unpublished(store) ==>
              Between(rec.timestamp, batch[0].timestamp, batch[|batch| - 1].timestamp)
  {
    var un := Unpublished(store);
    assert |batch| == |un| by {
      assert |multiset(batch)| == |batch| && |multiset(Rows(un))| == |Rows(un)|;
    }
    forall rec | rec in un
      ensures Between(rec.timestamp, batch[0].timestamp, batch[|batch| - 1].timestamp)
    {
      RowOfMember(un, rec);
      assert ToRow(rec) in multiset(batch);
      SortedBounds(batch, ToRow(rec));
    }
  }

  lemma RowOfMember(recs: seq<ObservationRecord>, rec: ObservationRecord)
    requires rec in recs
    ensures ToRow(rec) in multiset(Rows(recs))
  {
    var k :| 0 <= k < |recs| && recs[k] == rec;
    assert Rows(recs)[k] == ToRow(rec);
  }

  lemma SortedBounds(batch: seq<WeatherDataRow>, row: WeatherDataRow)
    requires SortedByTimestamp(batch) && row in batch
    ensures Between(row.timestamp, batch[0].timestamp, batch[|batch| - 1].timestamp)
  {
    var j :| 0 <= j < |batch| && batch[j] == row;
    assert batch[0].timestamp <= batch[j].timestamp;
    assert batch[j].timestamp <= batch[|batch| - 1].timestamp;
  }

  /** With every collaborator succeeding and nothing written between the
      read and the mark, the records newly marked published are exactly the
      rows sent, and nothing is left unpublished. */
  lemma MarkedEqualsSent(store: Store, cfg: EndpointConfig)
    ensures var r := RunCycle(store, cfg, AllSucceed);
            && multiset(Rows(NewlyPublished(store, r.store))) == multiset(Sent(r.cycle))
            && Unpublished(r.store) == []
  {
    var r := RunCycle(store, cfg, AllSucceed);
    var batch := ReadUnpublished(store, DbOk).value;
    if Unpublished(store) == [] {
      assert multiset(batch) == multiset{};
      assert batch == [];
      MarkRangeFlips(store, 0, 0);
    } else {
      AcknowledgedCycle(store, cfg);
      var c := Process(ReadUnpublished(store, DbOk), cfg, Pass, Response(StatusCreated));
      var lo, hi := batch[0].timestamp, batch[|batch| - 1].timestamp;
      assert r.cycle == c && c.mark == Some(Bounds(lo, hi));
      assert r.store == MarkRange(store, lo, hi);
      MarkRangeFlips(store, lo, hi);
      UnpublishedAllBetween(store, lo, hi);
      UnpublishedOutsideEmpty(store, lo, hi);
    }
  }

  lemma {:induction false} UnpublishedOutsideEmpty(store: Store, lo: int, hi: int)
    requires forall rec :: rec in Unpublished(store) ==> Between(rec.timestamp, lo, hi)
    ensures UnpublishedOutside(store, lo, hi) == []
  {
    if store != [] {
      assert forall rec :: rec in Unpublished(store[1..]) ==> rec in Unpublished(store);
      UnpublishedOutsideEmpty(store[1..], lo, hi);
    }
  }

  /** A failed read, a failed request build, a transport error or any status
      but 201 marks nothing: the store is unchanged and the next cycle reads
      the identical batch. */
  lemma FailedDeliveryKeepsBatch(store: Store, cfg: EndpointConfig, env: Env)
    requires env.build.Fail? || env.http != Response(StatusCreated) || env.readDb.DbFailed?
    ensures var r := RunCycle(store, cfg, env);
            && r.cycle.mark.None?
            && r.store == store
            && ReadUnpublished(r.store, DbOk) == ReadUnpublished(store, DbOk)
  {
  }

  /** At-least-once delivery: after a cycle whose send failed, the next
      successful cycle sends the very same body. */
  lemma RetrySendsSameBatch(store: Store, cfg: EndpointConfig, http: HttpOutcome)
    requires http != Response(StatusCreated)
    requires Unpublished(store) != []
    ensures var first := RunCycle(store, cfg, Env(DbOk, Pass, http, DbOk));
            var second := RunCycle(first.store, cfg, AllSucceed);
            && first.cycle.request.Some? && second.cycle.request.Some?
            && second.cycle.request.value == first.cycle.request.value
            && second.cycle.mark.Some?
  {
    BatchBoundsCover(store, ReadUnpublished(store, DbOk).value);
  }

  /** A failed `UpdatePublished` is reported once and not retried: the store
      is unchanged, so the next cycle sends the same rows again. */
  lemma FailedMarkLeavesRowsUnpublished(store: Store, cfg: EndpointConfig, e: Error)
    requires Unpublished(store) != []
    ensures var r := RunCycle(store, cfg, Env(DbOk, Pass, Response(StatusCreated), DbFailed(e)));
            && r.cycle.end == Acknowledged
            && r.markOutcome == Some(Fail(e))
            && r.store == store
            && Sent(RunCycle(r.store, cfg, AllSucceed).cycle) == Sent(r.cycle)
  {
    BatchBoundsCover(store, ReadUnpublished(store, DbOk).value);
  }

  /** An acknowledged cycle over a non-empty store sends the whole ordered
      batch and marks from its first to its last timestamp. */
  lemma AcknowledgedCycle(store: Store, cfg: EndpointConfig)
    requires Unpublished(store) != []
    ensures var batch := ReadUnpublished(store, DbOk).value;
            var c := Process(ReadUnpublished(store, DbOk), cfg, Pass, Response(StatusCreated));
            && batch != []
            && Sent(c) == batch
            && c.mark == Some(Bounds(batch[0].timestamp, batch[|batch| - 1].timestamp))
            && forall rec :: rec in Unpublished(store) ==>
                 Between(rec.timestamp, batch[0].timestamp, batch[|batch| - 1].timestamp)
  {
    BatchBoundsCover(store, ReadUnpublished(store, DbOk).value);
  }

  /** The race left open by marking a timestamp range: a row written between
      the read and the mark is marked published, without having been sent,
      exactly when its timestamp lies between the first and last row sent. */
  lemma WriteBetweenReadAndMark(store: Store, cfg: EndpointConfig, w: WeatherDataRow)
    requires Unpublished(store) != []
    ensures var c := Process(ReadUnpublished(store, DbOk), cfg, Pass, Response(StatusCreated));
            var b := c.mark.value;
            var written := Write(store, w, DbOk).store;
            var marked := UpdatePublished(written, b.min, b.max, DbOk).store;
            multiset(Rows(NewlyPublished(written, marked)))
              == multiset(Sent(c)) + (if Between(w.timestamp, b.min, b.max) then multiset{w} else multiset{})
  {
    AcknowledgedCycle(store, cfg);
    var batch := ReadUnpublished(store, DbOk).value;
    var lo, hi := batch[0].timestamp, batch[|batch| - 1].timestamp;
    var rec := Inserted(w);
    WriteReadRoundTrip(w);
    var written := store + [rec];
    assert Write(store, w, DbOk).store == written;
    assert UpdatePublished(written, lo, hi, DbOk).store == MarkRange(written, lo, hi);
    MarkAfterAppend(store, rec, lo, hi);
    var extra := if Between(w.timestamp, lo, hi) then [rec] else [];
    RowsAppend(Unpublished(store), extra);
    assert multiset(Rows(extra)) == if Between(w.timestamp, lo, hi) then multiset{w} else multiset{};
  }

  /** A concrete instance of the race: the batch holds one row at time 10
      and one at time 30, a row at time 20 arrives in between, and all three
      end up published although only two were sent. */
  lemma RaceExample(cfg: EndpointConfig, x: WeatherDataRow)
    ensures var store := [Inserted(x.(timestamp := 10)), Inserted(x.(timestamp := 30))];
            var w := x.(timestamp := 20);
            var c := Process(ReadUnpublished(store, DbOk), cfg, Pass, Response(StatusCreated));
            var written := Write(store, w, DbOk).store;
            var marked := UpdatePublished(written, c.mark.value.min, c.mark.value.max, DbOk).store;
            && |Sent(c)| == 2
            && w !in Sent(c)
            && marked[2].published
  {
    var r10, r30, w := x.(timestamp := 10), x.(timestamp := 30), x.(timestamp := 20);
    var store := [Inserted(r10), Inserted(r30)];
    WriteReadRoundTrip(r10);
    WriteReadRoundTrip(r30);
    WriteReadRoundTrip(w);
    assert Unpublished(store) == store;
    AcknowledgedCycle(store, cfg);
    var batch := ReadUnpublished(store, DbOk).value;
    BatchShape(store, batch, r10, r30);
    var c := Process(ReadUnpublished(store, DbOk), cfg, Pass, Response(StatusCreated));
    assert c.mark == Some(Bounds(10, 30));
    var written := Write(store, w, DbOk).store;
    assert |written| == 3 && ToRow(written[2]) == w;
  }

  /** The batch read from two unpublished records at times 10 and 30. */
  lemma BatchShape(store: Store, batch: seq<WeatherDataRow>, r10: WeatherDataRow, r30: WeatherDataRow)
    requires r10.timestamp == 10 && r30.timestamp == 30
    requires store == [Inserted(r10), Inserted(r30)]
    requires Unpublished(store) == store
    requires batch == ReadUnpublished(store, DbOk).value
    requires forall rec :: rec in Unpublished(store) ==>
               Between(rec.timestamp, batch[0].timestamp, batch[|batch| - 1].timestamp)
    ensures |batch| == 2 && batch[0].timestamp == 10 && batch[1].timestamp == 30
    ensures forall row :: row in batch ==> row.timestamp != 20
  {
    WriteReadRoundTrip(r10);
    WriteReadRoundTrip(r30);
    assert Rows(store) == [r10, r30];
    assert multiset(batch) == multiset{r10, r30};
    assert |batch| == 2 by {
      assert |multiset(batch)| == |batch|;
    }
    forall row | row in batch ensures row.timestamp == 10 || row.timestamp == 30 {
      assert row in multiset(batch);
    }
    assert batch[0] in batch && batch[1] in batch;
    assert Inserted(r10) in Unpublished(store) && Inserted(r30) in Unpublished(store);
  }
}

=== FILE: publisher.dfy ===
/** One publish cycle (`Publisher.Process`) as a pure decision over what the
    store returned, the endpoint configuration and the outcomes of the
    collaborators: building the request and sending it. The result says which
    request is sent, if any, and with which bounds `UpdatePublished` is
    called, if at all. The timer loop around it is not modelled. */
module Publisher {
  import opened Wrappers
  import opened Readings
  import opened JsonBody

  datatype Endpoint = Endpoint(httpMethod: string, path: string)

  /** The collector's host and the endpoint observations are sent to. */
  datatype EndpointConfig = EndpointConfig(host: string, sendObservations: Endpoint)

  /** The request handed to the HTTP client. */
  datatype Request = Request(httpMethod: string, url: string, contentType: string, body: Json)

  /** What the HTTP client's `Do` returns: a transport error or a response. */
  datatype HttpOutcome = TransportError(error: Error) | Response(statusCode: int)

  /** The inclusive timestamp bounds passed to `UpdatePublished`. */
  datatype Bounds = Bounds(min: int, max: int)

  /** Where the cycle stopped; each early stop is logged by the source. */
  datatype CycleEnd =
    | ReadFailed(error: Error)
    | NothingToPublish
    | RequestFailed(error: Error)
    | SendFailed(error: Error)
    | UnexpectedStatus(statusCode: int)
    | Acknowledged

  /** The effects of one cycle: at most one request and at most one mark. */
  datatype Cycle = Cycle(request: Option<Request>, mark: Option<Bounds>, end: CycleEnd)

  const StatusCreated: int := 201

  /** The method `http.NewRequest` uses when it is given none. */
  const DefaultMethod: string := "GET"

  /** The method the request carries: the configured one, or GET when the
      configuration leaves it empty. */
  function RequestMethod(configured: string): string {
    if configured == [] then DefaultMethod else configured
  }
  const ContentTypeJson: string := "application/json"

  /** The path part of the URL: a path not starting with a slash gets one
      when a host precedes it. */
  function PathPart(host: string, path: string): string {
    if path != [] && path[0] != '/' && host != [] then "/" + path else path
  }

  /** The `https` URL of the observations endpoint (no escaping modelled). */
  function Url(cfg: EndpointConfig): string {
    var host := cfg.host;
    var path := cfg.sendObservations.path;
    "https:" + (if host != [] || path != [] then "//" + host else "") + PathPart(host, path)
  }

  /** Position of the first `/` in `s`, or `|s|` when there is none. */
  function SlashIndex(s: string): (k: nat)
    ensures k <= |s|
    ensures forall j :: 0 <= j < k ==> s[j] != '/'
    ensures k < |s| ==> s[k] == '/'
  {
    if s == [] || s[0] == '/' then 0 else 1 + SlashIndex(s[1..])
  }

  /** Host and path of an `https://` URL: the host runs to the first slash. */
  function SplitUrl(u: string): Option<(string, string)> {
    var prefix := "https://";
    if |u| >= |prefix| && u[..|prefix|] == prefix then
      var rest := u[|prefix|..];
      var k := SlashIndex(rest);
      Some((rest[..k], rest[k..]))
    else None
  }

  lemma {:induction false} SlashIndexAfter(host: string, rest: string)
    requires '/' !in host
    requires rest == [] || rest[0] == '/'
    ensures SlashIndex(host + rest) == |host|
  {
    if host != [] {
      assert (host + rest)[1..] == host[1..] + rest;
      SlashIndexAfter(host[1..], rest);
    }
  }

  /** The URL carries the configured host, and the configured path behind
      exactly one leading slash: `https://<host>/<path>`. */
  lemma UrlParts(cfg: EndpointConfig)
    requires cfg.host != [] && '/' !in cfg.host
    ensures var path := cfg.sendObservations.path;
            SplitUrl(Url(cfg)) == Some((cfg.host, if path != [] && path[0] != '/' then "/" + path else path))
  {
    var host := cfg.host;
    var tail := PathPart(host, cfg.sendObservations.path);
    assert Url(cfg) == "https://" + (host + tail);
    assert Url(cfg)[|"https://"|..] == host + tail;
    SlashIndexAfter(host, tail);
    assert (host + tail)[..|host|] == host;
    assert (host + tail)[|host|..] == tail;
  }

  /** `Publisher.Process`. `read` is what `ReadUnpublished` returned, `build`
      whether `http.NewRequest` succeeded, and `http` what the client's `Do`
      returned (consulted only when a request is sent). Encoding the batch
      cannot fail here, since the model's readings have no NaN or infinity. */
  function Process(read: Result<seq<WeatherDataRow>>, cfg: EndpointConfig, build: Outcome, http: HttpOutcome): (c: Cycle)
    ensures read.Failure? ==> c.request.None? && c.mark.None? && c.end == ReadFailed(read.error)
    ensures read == Success([]) ==> c.request.None? && c.mark.None? && c.end == NothingToPublish
    ensures c.request.Some? <==> read.Success? && read.value != [] && build.Pass?
    ensures c.request.Some? ==>
              && (cfg.sendObservations.httpMethod != [] ==> c.request.value.httpMethod == cfg.sendObservations.httpMethod)
              && (cfg.sendObservations.httpMethod == [] ==> c.request.value.httpMethod == "GET")
              && c.request.value.url == Url(cfg)
              && c.request.value.contentType == ContentTypeJson
              && Decode(c.request.value.body) == Some(read.value)
    ensures c.mark.Some? <==> c.request.Some? && http == Response(StatusCreated)
    ensures c.mark.Some? ==>
              c.mark.value == Bounds(read.value[0].timestamp, read.value[|read.value| - 1].timestamp)
              && c.end == Acknowledged
    ensures read.Success? && read.value != [] && build.Fail? ==> c.end == RequestFailed(build.error)
    ensures c.request.Some? && http.TransportError? ==> c.end == SendFailed(http.error)
    ensures c.request.Some? && http.Response? && http.statusCode != StatusCreated ==>
              c.end == UnexpectedStatus(http.statusCode)
  {
    match read
    case Failure(e) => Cycle(None, None, ReadFailed(e))
    case Success(rows) =>
      if rows == [] then Cycle(None, None, NothingToPublish)
      else
        var body := Encode(rows);
        DecodeEncode(rows);
        match build
        case Fail(e) => Cycle(None, None, RequestFailed(e))
        case Pass =>
          var req := Request(RequestMethod(cfg.sendObservations.httpMethod), Url(cfg), ContentTypeJson, body);
          match http
          case TransportError(e) => Cycle(Some(req), None, SendFailed(e))
          case Response(status) =>
            if status != StatusCreated then Cycle(Some(req), None, UnexpectedStatus(status))
            else Cycle(Some(req), Some(Bounds(rows[0].timestamp, rows[|rows| - 1].timestamp)), Acknowledged)
  }
}

=== FILE: pulse_counter.dfy ===
/** The pulse counter shared by the wind-speed and rainfall tools. An edge
    callback increments the count when the pin reads high; once per interval
    the loop copies the count under the lock and, in a second critical
    section, resets it to zero. Each critical section is one atomic event,
    and any interleaving of the callback with the loop is a trace of events. */
module PulseCounter {

  /** A rising-edge callback with the level it read from the pin, the loop's
      snapshot of the count, or its reset of the count. */
  datatype Event = Edge(pinHigh: bool) | Snapshot | Reset

  /** The shared count and the values the loop has snapshotted so far. */
  datatype Counter = Counter(highs: nat, reported: seq<nat>)

  const Initial: Counter := Counter(0, [])

  function Step(c: Counter, e: Event): Counter {
    match e
    case Edge(high) => if high then c.(highs := c.highs + 1) else c
    case Snapshot => c.(reported := c.reported + [c.highs])
    case Reset => c.(highs := 0)
  }

  /** The counter after the events of `t`, in order. */
  function RunFrom(c: Counter, t: seq<Event>): Counter
    decreases |t|
  {
    if t == [] then c else RunFrom(Step(c, t[0]), t[1..])
  }

  function Run(t: seq<Event>): Counter {
    RunFrom(Initial, t)
  }

  /** Reference count: the edges of `t` at which the pin read high. */
  function Highs(t: seq<Event>): nat {
    if t == [] then 0 else (if t[0] == Edge(true) then 1 else 0) + Highs(t[1..])
  }

  /** The events after the last reset of `t` (all of `t` if it has none). */
  function SinceReset(t: seq<Event>): (r: seq<Event>)
    ensures Reset !in r
  {
    if t == [] then []
    else if t[|t| - 1] == Reset then []
    else SinceReset(t[..|t| - 1]) + [t[|t| - 1]]
  }

  lemma {:induction false} RunFromAppend(c: Counter, t: seq<Event>, u: seq<Event>)
    ensures RunFrom(c, t + u) == RunFrom(RunFrom(c, t), u)
    decreases |t|
  {
    if t == [] {
      assert t + u == u;
    } else {
      assert (t + u)[0] == t[0];
      assert (t + u)[1..] == t[1..] + u;
      RunFromAppend(Step(c, t[0]), t[1..], u);
    }
  }

  lemma {:induction false} HighsAppend(t: seq<Event>, u: seq<Event>)
    ensures Highs(t + u) == Highs(t) + Highs(u)
  {
    if t == [] {
      assert t + u == u;
    } else {
      assert (t + u)[0] == t[0];
      assert (t + u)[1..] == t[1..] + u;
      HighsAppend(t[1..], u);
    }
  }

  /** Running one more event is one more step. */
  lemma RunSnoc(t: seq<Event>, e: Event)
    ensures Run(t + [e]) == Step(Run(t), e)
  {
    RunFromAppend(Initial, t, [e]);
  }

  /** At every point of any interleaving, the count is the number of high
      edges since the last reset: a reset forgets everything before it. */
  lemma {:induction false} CountIsSinceReset(t: seq<Event>)
    ensures Run(t).highs == Highs(SinceReset(t))
    decreases |t|
  {
    if t != [] {
      var front, e := t[..|t| - 1], t[|t| - 1];
      assert t == front + [e];
      RunSnoc(front, e);
      CountIsSinceReset(front);
      if e != Reset {
        HighsAppend(SinceReset(front), [e]);
      }
    }
  }

  /** A snapshot reports exactly the high edges between the last reset and
      itself, and earlier reports are never revised. */
  lemma SnapshotReportsWindow(t: seq<Event>, i: nat)
    requires i < |t| && t[i] == Snapshot
    ensures Run(t[..i + 1]).reported == Run(t[..i]).reported + [Highs(SinceReset(t[..i]))]
  {
    assert t[..i + 1] == t[..i] + [Snapshot];
    RunSnoc(t[..i], Snapshot);
    CountIsSinceReset(t[..i]);
  }

  /** Edge callbacks carrying the given pin levels, in order. */
  function Edges(levels: seq<bool>): (t: seq<Event>)
    ensures |t| == |levels|
  {
    if levels == [] then [] else [Edge(levels[0])] + Edges(levels[1..])
  }

  /** How many of the levels are high. */
  function CountHigh(levels: seq<bool>): nat {
    if levels == [] then 0 else (if levels[0] then 1 else 0) + CountHigh(levels[1..])
  }

  lemma {:induction false} EdgesCount(c: Counter, levels: seq<bool>)
    ensures RunFrom(c, Edges(levels)) == c.(highs := c.highs + CountHigh(levels))
    ensures Highs(Edges(levels)) == CountHigh(levels)
    decreases |levels|
  {
    if levels != [] {
      EdgesCount(Step(c, Edge(levels[0])), levels[1..]);
    }
  }

  /** After a reset the count restarts from zero: it then holds exactly the
      high edges that followed the reset. */
  lemma ResetStartsFromZero(c: Counter, levels: seq<bool>)
    ensures RunFrom(c, [Reset] + Edges(levels)).highs == CountHigh(levels)
  {
    RunFromAppend(c, [Reset], Edges(levels));
    EdgesCount(Step(c, Reset), levels);
  }

  /** One interval of the tool's loop: the edges that arrive before the
      snapshot, and those that arrive between the snapshot and the reset. */
  datatype Interval = Interval(before: seq<bool>, between: seq<bool>)

  function IntervalTrace(w: Interval): seq<Event> {
    Edges(w.before) + [Snapshot] + Edges(w.between) + [Reset]
  }

  /** The trace of the loop over successive intervals. */
  function LoopTrace(ws: seq<Interval>): seq<Event> {
    if ws == [] then [] else IntervalTrace(ws[0]) + LoopTrace(ws[1..])
  }

  /** What each interval should report: its edges before the snapshot. */
  function Windows(ws: seq<Interval>): (r: seq<nat>)
    ensures |r| == |ws|
  {
    if ws == [] then [] else [CountHigh(ws[0].before)] + Windows(ws[1..])
  }

  /** The edges that fall between a snapshot and its reset. */
  function Lost(ws: seq<Interval>): nat {
    if ws == [] then 0 else CountHigh(ws[0].between) + Lost(ws[1..])
  }

  function Sum(s: seq<nat>): nat {
    if s == [] then 0 else s[0] + Sum(s[1..])
  }

  lemma IntervalStep(c: Counter, w: Interval)
    requires c.highs == 0
    ensures RunFrom(c, IntervalTrace(w)) == Counter(0, c.reported + [CountHigh(w.before)])
  {
    var a, b := Edges(w.before), Edges(w.between);
    assert IntervalTrace(w) == a + ([Snapshot] + (b + [Reset]));
    RunFromAppend(c, a, [Snapshot] + (b + [Reset]));
    EdgesCount(c, w.before);
    var c1 := RunFrom(c, a);
    RunFromAppend(c1, [Snapshot], b + [Reset]);
    var c2 := Step(c1, Snapshot);
    RunFromAppend(c2, b, [Reset]);
    EdgesCount(c2, w.between);
  }

  /** Over the loop, the i-th snapshot reports exactly the high edges of the
      i-th interval that came before it, and the count is zero after each
      reset. */
  lemma {:induction false} LoopReports(ws: seq<Interval>, c: Counter)
    requires c.highs == 0
    ensures RunFrom(c, LoopTrace(ws)) == Counter(0, c.reported + Windows(ws))
    decreases |ws|
  {
    if ws != [] {
      RunFromAppend(c, IntervalTrace(ws[0]), LoopTrace(ws[1..]));
      IntervalStep(c, ws[0]);
      var c1 := Counter(0, c.reported + [CountHigh(ws[0].before)]);
      LoopReports(ws[1..], c1);
      assert c1.reported + Windows(ws[1..]) == c.reported + Windows(ws);
    }
  }

  /** No high edge is counted twice: the snapshots together report every
      high edge of the loop except those that fell between a snapshot and
      its reset, which are reported by none. */
  lemma {:induction false} LoopAccounting(ws: seq<Interval>)
    ensures Highs(LoopTrace(ws)) == Sum(Windows(ws)) + Lost(ws)
    decreases |ws|
  {
    if ws != [] {
      var w := ws[0];
      var a, b := Edges(w.before), Edges(w.between);
      HighsAppend(IntervalTrace(w), LoopTrace(ws[1..]));
      assert IntervalTrace(w) == a + ([Snapshot] + (b + [Reset]));
      HighsAppend(a, [Snapshot] + (b + [Reset]));
      HighsAppend([Snapshot], b + [Reset]);
      HighsAppend(b, [Reset]);
      EdgesCount(Initial, w.before);
      EdgesCount(Initial, w.between);
      LoopAccounting(ws[1..]);
    }
  }

  /** Each count converted by `f`, in order. */
  function Convert(counts: seq<nat>, f: nat -> real): (r: seq<real>)
    ensures |r| == |counts|
    ensures forall i :: 0 <= i < |counts| ==> r[i] == f(counts[i])
  {
    if counts == [] then [] else [f(counts[0])] + Convert(counts[1..], f)
  }

  /** The values a tool computes from its snapshots so far: one per
      snapshot, each the conversion `f` of the count it read. */
  function Reports(t: seq<Event>, f: nat -> real): (r: seq<real>)
    ensures |r| == |Run(t).reported|
  {
    Convert(Run(t).reported, f)
  }
}

=== FILE: rainfall.dfy ===
/** The rain-gauge tool: the pulse counter plus the conversion of one
    interval's count of bucket tips into millimetres. The rainfall is a
    window total; the interval is only reported beside it. */
module Rainfall {
  import opened PulseCounter

  /** Millimetres of rain per tip of the bucket. */
  const RainPerTip: real := 0.2794

  /** The rainfall for a count of tips. */
  function RainfallMm(tips: nat): (mm: real)
    ensures tips == 0 ==> mm == 0.0
    ensures mm >= 0.0
    ensures tips > 0 ==> mm >= RainPerTip
  {
    tips as real * RainPerTip
  }

  /** What each interval reports: the rainfall and the interval length. */
  datatype Report = Report(rainfall: real, intervalSeconds: int)

  function ReportFor(tips: nat, intervalSeconds: int): Report {
    Report(RainfallMm(tips), intervalSeconds)
  }

  /** The rainfall depends on the snapshot count alone, not on the interval. */
  lemma RainfallIgnoresInterval(tips: nat, i1: int, i2: int)
    ensures ReportFor(tips, i1).rainfall == ReportFor(tips, i2).rainfall
    ensures ReportFor(tips, i1).intervalSeconds == i1
  {
  }

  /** The rainfall is linear in the count of tips. */
  lemma RainfallLinear(a: nat, b: nat)
    ensures RainfallMm(a + b) == RainfallMm(a) + RainfallMm(b)
  {
  }

  function SumReal(s: seq<real>): real {
    if s == [] then 0.0 else s[0] + SumReal(s[1..])
  }

  lemma {:induction false} SumConvert(counts: seq<nat>)
    ensures SumReal(Convert(counts, RainfallMm)) == RainfallMm(Sum(counts))
  {
    if counts != [] {
      SumConvert(counts[1..]);
      RainfallLinear(counts[0], Sum(counts[1..]));
    }
  }

  /** Over the tool's loop, the computed totals add up to the rain of every
      tip except the tips that fell between a snapshot and its reset: no tip
      is reported twice, and those tips are lost. */
  lemma LoopRainfall(ws: seq<Interval>)
    ensures SumReal(Reports(LoopTrace(ws), RainfallMm)) + RainfallMm(Lost(ws))
            == RainfallMm(Highs(LoopTrace(ws)))
  {
    LoopReports(ws, Initial);
    assert Initial.reported + Windows(ws) == Windows(ws);
    assert Reports(LoopTrace(ws), RainfallMm) == Convert(Windows(ws), RainfallMm);
    LoopAccounting(ws);
    SumConvert(Windows(ws));
    RainfallLinear(Sum(Windows(ws)), Lost(ws));
  }

  /** Once the interval's reset has run, the next report counts only the
      tips that arrived after it. */
  lemma NextIntervalStartsFromZero(ws: seq<Interval>, levels: seq<bool>)
    ensures var t := LoopTrace(ws) + Edges(levels) + [Snapshot];
            Reports(t, RainfallMm) == Reports(LoopTrace(ws), RainfallMm) + [RainfallMm(CountHigh(levels))]
  {
    LoopReports(ws, Initial);
    RunFromAppend(Initial, LoopTrace(ws), Edges(levels) + [Snapshot]);
    assert LoopTrace(ws) + Edges(levels) + [Snapshot] == LoopTrace(ws) + (Edges(levels) + [Snapshot]);
    var c := Run(LoopTrace(ws));
    RunFromAppend(c, Edges(levels), [Snapshot]);
    EdgesCount(c, levels);
  }
}

=== FILE: readings.dfy ===
/** The record shapes that flow from the sensors into the observations table
    and out to the remote collector. Every reading field is an opaque value
    carried from producer to store to publisher; no arithmetic is done on it
    here, so it is modelled as an exact `real`. */
module Readings {

  /** Temperature, pressure and humidity as read from the BME280 chip. */
  datatype AtmosphericReadings = AtmosphericReadings(temperature: real, pressure: real, humidity: real)

  /** Wind speed (km/h), vane direction (degrees) and gust (km/h). */
  datatype WindReadings = WindReadings(speed: real, direction: real, gust: real)

  /** Rainfall (mm) over one window. */
  datatype RainReadings = RainReadings(rainfall: real)

  /** One observation as passed to and from the data store: a 64-bit Unix
      timestamp, the three readings and the polling interval. */
  datatype WeatherDataRow = WeatherDataRow(
    timestamp: int,
    atmos: AtmosphericReadings,
    wind: WindReadings,
    rain: RainReadings,
    intervalSeconds: int)

  /** Timestamps ascend (ties allowed) along the sequence. */
  predicate SortedByTimestamp(rows: seq<WeatherDataRow>) {
    forall i, j :: 0 <= i < j < |rows| ==> rows[i].timestamp <= rows[j].timestamp
  }
}

=== FILE: wind_direction.dfy ===
/** The wind-vane tool: a 10-bit ADC reading becomes a voltage, the voltage
    is formatted with one decimal, and the resulting string is looked up in a
    constant table of 16 compass headings. A missing key yields no heading
    (the tool prints a diagnostic and skips the tick). The arithmetic is done
    exactly: 3.3 / 1023 is 1 / 310 volt, so the voltage in tenths is the
    reading divided by 31. */
module WindDirection {
  import opened Wrappers

  /** Full scale of the ADC and its reference voltage. */
  const AdcFullScale: nat := 1023
  const ReferenceVolts: real := 3.3

  /** Voltage key (one decimal) to heading in degrees. */
  const VoltsToDegrees: map<string, real> := map[
    "0.4" := 0.0,
    "1.4" := 22.5,
    "1.2" := 45.0,
    "2.8" := 67.5,
    "2.7" := 90.0,
    "2.9" := 112.5,
    "2.2" := 135.0,
    "2.5" := 157.5,
    "1.8" := 180.0,
    "2.0" := 202.5,
    "0.7" := 225.0,
    "0.8" := 247.5,
    "0.1" := 270.0,
    "0.3" := 292.5,
    "0.2" := 315.0,
    "0.6" := 337.5
  ]

  /** The table's keys, as whole tenths of a volt. */
  const TableTenths: set<nat> := {1, 2, 3, 4, 6, 7, 8, 12, 14, 18, 20, 22, 25, 27, 28, 29}

  /** The voltage the vane's divider presents for an ADC reading. */
  function Voltage(reading: nat): real {
    reading as real / AdcFullScale as real * ReferenceVolts
  }

  /** The voltage rounded to the nearest tenth, in tenths. The distance to the
      voltage is strictly below one half, so no reading is a rounding tie and
      the `%.1f` rounding mode does not matter. */
  function VoltageTenths(reading: nat): (k: nat)
    ensures (k as real) - 0.5 < 10.0 * Voltage(reading) < (k as real) + 0.5
  {
    var k := (reading + 15) / 31;
    assert 31 * k <= reading + 15 < 31 * k + 31;
    assert 10.0 * Voltage(reading) == reading as real / 31.0;
    k
  }

  /** Any whole number of tenths within one half of the voltage is the one
      `VoltageTenths` picks. */
  lemma NearestTenthUnique(reading: nat, j: int)
    requires (j as real) - 0.5 <= 10.0 * Voltage(reading) <= (j as real) + 0.5
    ensures j == VoltageTenths(reading)
  {
  }

  function Digit(d: nat): char
    requires d < 10
  {
    "0123456789"[d]
  }

  function DigitValue(c: char): Option<nat> {
    if '0' <= c <= '9' then Some((c - '0') as nat) else None
  }

  /** A natural number in decimal, without leading zeros. */
  function DecimalString(n: nat): (s: string)
    ensures |s| > 0
    ensures forall i :: 0 <= i < |s| ==> '0' <= s[i] <= '9'
  {
    if n < 10 then [Digit(n)] else DecimalString(n / 10) + [Digit(n % 10)]
  }

  /** The value of a non-empty string of decimal digits. */
  function ParseDecimal(s: string): Option<nat> {
    if s == [] then None
    else
      var last := DigitValue(s[|s| - 1]);
      if last.None? then None
      else if |s| == 1 then last
      else
        match ParseDecimal(s[..|s| - 1])
        case None => None
        case Some(v) => Some(10 * v + last.value)
  }

  lemma {:induction false} ParseDecimalString(n: nat)
    ensures ParseDecimal(DecimalString(n)) == Some(n)
  {
    if n >= 10 {
      ParseDecimalString(n / 10);
      var s := DecimalString(n);
      assert s[..|s| - 1] == DecimalString(n / 10);
    }
  }

  /** `%.1f` of a voltage that is `k` tenths: integer part, a dot, one digit. */
  function FormatTenths(k: nat): (s: string)
    ensures |s| >= 3 && s[|s| - 2] == '.'
  {
    DecimalString(k / 10) + "." + [Digit(k % 10)]
  }

  /** Reads a `%.1f` key back as whole tenths. */
  function ParseTenths(s: string): Option<nat> {
    if |s| < 3 || s[|s| - 2] != '.' then None
    else
      match (ParseDecimal(s[..|s| - 2]), DigitValue(s[|s| - 1]))
      case (Some(whole), Some(d)) => Some(10 * whole + d)
      case _ => None
  }

  /** Formatting loses nothing: the key determines the tenths. */
  lemma ParseFormatTenths(k: nat)
    ensures ParseTenths(FormatTenths(k)) == Some(k)
  {
    var s := FormatTenths(k);
    ParseDecimalString(k / 10);
    assert s[..|s| - 2] == DecimalString(k / 10);
  }

  lemma FormatTenthsInjective(j: nat, k: nat)
    requires FormatTenths(j) == FormatTenths(k)
    ensures j == k
  {
    ParseFormatTenths(j);
    ParseFormatTenths(k);
  }

  /** The key looked up for an ADC reading. */
  function Key(reading: nat): string {
    FormatTenths(VoltageTenths(reading))
  }

  /** The heading for an ADC reading, or `None` when its key is not in the
      table: a reading yields a heading exactly when its voltage rounds to
      one of the 16 tabulated tenths, and the heading is then the table's
      entry for that key, one of the 16 compass points. */
  function Heading(reading: nat): (h: Option<real>)
    ensures h.Some? <==> VoltageTenths(reading) in TableTenths
    ensures h.Some? ==> Key(reading) in VoltsToDegrees && h.value == VoltsToDegrees[Key(reading)]
    ensures h.Some? ==> h.value in CompassDegrees
  {
    var key := Key(reading);
    FormattedKeyInTable(VoltageTenths(reading));
    TableValuesWithin();
    if key in VoltsToDegrees then Some(VoltsToDegrees[key]) else None
  }

  /** A key of the table, read back as tenths, is one of `TableTenths`. */
  lemma TableKeyTenths(s: string)
    requires s in VoltsToDegrees
    ensures ParseTenths(s).Some? && ParseTenths(s).value in TableTenths
  {
  }

  /** A formatted voltage is a key of the table exactly when its tenths are
      one of `TableTenths`. */
  lemma FormattedKeyInTable(k: nat)
    ensures FormatTenths(k) in VoltsToDegrees <==> k in TableTenths
  {
    ParseFormatTenths(k);
    if FormatTenths(k) in VoltsToDegrees {
      TableKeyTenths(FormatTenths(k));
    }
    if k in TableTenths {
      assert FormatTenths(k) == [Digit(k / 10), '.', Digit(k % 10)];
      assert k == 1 || k == 2 || k == 3 || k == 4 || k == 6 || k == 7 || k == 8 || k == 12 || k == 14
          || k == 18 || k == 20 || k == 22 || k == 25 || k == 27 || k == 28 || k == 29;
    }
  }

  /** Readings 0 to 15 round to "0.0" and full scale to "3.3"; neither key
      is in the table, so they yield no heading. */
  lemma NoHeadingAtExtremes(reading: nat)
    requires reading <= 15 || reading == AdcFullScale
    ensures Heading(reading).None?
  {
  }

  /** The k-th point of a 16-point compass, in degrees. */
  function CompassPoint(k: nat): real {
    k as real * 22.5
  }

  /** The 16 compass points, listed. */
  const CompassDegrees: set<real> := {0.0, 22.5, 45.0, 67.5, 90.0, 112.5, 135.0, 157.5,
                                      180.0, 202.5, 225.0, 247.5, 270.0, 292.5, 315.0, 337.5}

  lemma TableValuesWithin()
    ensures VoltsToDegrees.Values <= CompassDegrees
  {
  }

  lemma TableValuesCover()
    ensures CompassDegrees <= VoltsToDegrees.Values
  {
    var m := VoltsToDegrees;
    assert m["0.4"] == 0.0 && m["1.4"] == 22.5 && m["1.2"] == 45.0 && m["2.8"] == 67.5;
    assert m["2.7"] == 90.0 && m["2.9"] == 112.5 && m["2.2"] == 135.0 && m["2.5"] == 157.5;
    assert m["1.8"] == 180.0 && m["2.0"] == 202.5 && m["0.7"] == 225.0 && m["0.8"] == 247.5;
    assert m["0.1"] == 270.0 && m["0.3"] == 292.5 && m["0.2"] == 315.0 && m["0.6"] == 337.5;
  }

  lemma CompassDegreesArePoints()
    ensures CompassDegrees == set k | 0 <= k < 16 :: CompassPoint(k)
  {
    forall k | 0 <= k < 16 ensures CompassPoint(k) in CompassDegrees {
      assert k == 0 || k == 1 || k == 2 || k == 3 || k == 4 || k == 5 || k == 6 || k == 7
          || k == 8 || k == 9 || k == 10 || k == 11 || k == 12 || k == 13 || k == 14 || k == 15;
    }
    forall x | x in CompassDegrees ensures exists k :: 0 <= k < 16 && CompassPoint(k) == x {
      var k := (x / 22.5).Floor;
      assert CompassPoint(k) == x;
    }
  }

  /** The headings of the table are exactly the 16 compass points
      k * 22.5 for k = 0..15. */
  lemma TableHeadingsAreCompassPoints()
    ensures VoltsToDegrees.Values == set k | 0 <= k < 16 :: CompassPoint(k)
  {
    TableValuesWithin();
    TableValuesCover();
    CompassDegreesArePoints();
  }

  /** A map has no more distinct values than entries. */
  lemma {:induction false} ValuesNoMoreThanEntries(m: map<string, real>)
    ensures |m.Values| <= |m|
  {
    if |m| > 0 {
      var k :| k in m;
      var rest := m - {k};
      ValuesNoMoreThanEntries(rest);
      forall v | v in m.Values ensures v in rest.Values + {m[k]} {
        var j :| j in m && m[j] == v;
        if j != k {
          assert j in rest && rest[j] == v;
        }
      }
      SubsetNoLarger(m.Values, rest.Values + {m[k]});
    }
  }

  lemma SubsetNoLarger(a: set<real>, b: set<real>)
    requires a <= b
    ensures |a| <= |b|
  {
    assert b == a + (b - a);
    assert a * (b - a) == {};
  }

  lemma CompassDegreesCount()
    ensures |CompassDegrees| == 16
  {
  }


  /** The table has 16 entries: its 16 distinct headings need at least as
      many keys. */
  lemma TableSize()
    ensures |VoltsToDegrees| == 16
  {
    TableAtMost16();
    TableValuesWithin();
    TableValuesCover();
    CountFromValues(VoltsToDegrees);
  }

  lemma TableAtMost16()
    ensures |VoltsToDegrees| <= 16
  {
  }

  lemma CountFromValues(m: map<string, real>)
    requires m.Values == CompassDegrees
    requires |m| <= 16
    ensures |m| == 16
  {
    CompassDegreesCount();
    ValuesNoMoreThanEntries(m);
  }

  /** Distinct keys carry distinct headings, all in [0, 360): each compass
      point is used exactly once. */
  lemma TableIsOneToOne()
    ensures forall s, t :: s in VoltsToDegrees && t in VoltsToDegrees && s != t ==>
              VoltsToDegrees[s] != VoltsToDegrees[t]
    ensures forall s :: s in VoltsToDegrees ==> 0.0 <= VoltsToDegrees[s] < 360.0
  {
  }
}

=== FILE: wind_speed.dfy ===
/** The anemometer tool: the pulse counter plus the conversion of one
    interval's count of high edges into km/h. The tool declares flags for
    radius, interval, factor and GPIO pin but never parses them, so the defaults
    below are always in effect; in particular the divisor is 5, never 0. */
module WindSpeed {
  import opened PulseCounter

  const DefaultAnemRadius: real := 9.0
  const DefaultInterval: nat := 5
  const DefaultAnemFactor: real := 1.18

  /** The decimal expansion Go uses for `math.Pi`. */
  const Pi: real := 3.14159265358979323846264338327950288419716939937510582097494459

  /** The anemometer closes the switch twice per rotation. */
  function Rotations(highs: nat): real {
    highs as real / 2.0
  }

  /** Speed in km/h over one interval of `DefaultInterval` seconds:
      circumference times rotations gives the distance, scaled by 1/100000,
      divided by the interval, times 3600 and the calibration factor. */
  function SpeedKmh(highs: nat): (speed: real)
    ensures highs == 0 ==> speed == 0.0
    ensures speed >= 0.0
  {
    var circumference := (2.0 * Pi) * DefaultAnemRadius;
    var distance := (circumference * Rotations(highs)) / 100000.0;
    (distance / DefaultInterval as real) * 3600.0 * DefaultAnemFactor
  }

  /** The speed contributed by one high edge, worked out by hand:
      2 * pi * 9 / 2 / 100000 / 5 * 3600 * 1.18 = 0.076464 * pi. */
  const KmhPerHigh: real := 0.076464 * Pi

  /** The speed is the count times a fixed per-edge constant. */
  lemma SpeedIsProportional(highs: nat)
    ensures SpeedKmh(highs) == highs as real * KmhPerHigh
  {
  }

  /** The speed is linear in the count. */
  lemma SpeedLinear(a: nat, b: nat)
    ensures SpeedKmh(a + b) == SpeedKmh(a) + SpeedKmh(b)
  {
    SpeedIsProportional(a);
    SpeedIsProportional(b);
    SpeedIsProportional(a + b);
  }

  /** Over the tool's loop, the i-th speed computed is the speed of the high
      edges that arrived in the i-th interval before its snapshot. */
  lemma LoopSpeeds(ws: seq<Interval>)
    ensures |Reports(LoopTrace(ws), SpeedKmh)| == |ws|
    ensures forall i :: 0 <= i < |ws| ==> Reports(LoopTrace(ws), SpeedKmh)[i] == SpeedKmh(CountHigh(ws[i].before))
  {
    LoopReports(ws, Initial);
    WindowsAt(ws);
  }

  lemma {:induction false} WindowsAt(ws: seq<Interval>)
    ensures forall i :: 0 <= i < |ws| ==> Windows(ws)[i] == CountHigh(ws[i].before)
  {
    if ws != [] {
      WindowsAt(ws[1..]);
    }
  }
}

=== FILE: wrappers.dfy ===
/** Failure-carrying datatypes shared by the whole model. A Go `error` is
    opaque to the code modelled here, so it is carried as an uninterpreted
    message. */
module Wrappers {

  /** An error value as returned by a collaborator (database, HTTP client,
      I2C driver). Only its identity matters: it is passed on unchanged. */
  datatype Error = Error(message: string)

  /** The `value, ok` pair of a Go map lookup, or a nil-able pointer. */
  datatype Option<+T> = None | Some(value: T)

  /** A Go `(value, error)` pair where exactly one side is meaningful. */
  datatype Result<+T> = Success(value: T) | Failure(error: Error)

  /** A Go call that returns only an `error`. */
  datatype Outcome = Pass | Fail(error: Error)
}
